=== FILE: README.md ===
# Nojima price-drop monitor — a Dafny model of its decision logic

`monitor.py` watches four used-goods categories of the Nojima online shop. Each
run does the following:

- It loads a JSON ledger that maps `category:name` to the last seen price.
- It scrapes each category page. It keeps at most 40 candidate items. An item
  with a name whose first `¥` text carries at least 4 digits becomes a product.
- It compares every product against the ledger as it stands at that point. A
  drop is recorded when the key is known and the stored price is strictly
  higher. Then it merges the page into the ledger.
- When drops exist, it composes one LINE message. The message is headed by the
  total number of drops and lists the 6 largest drops, largest first. Equal
  drops stay in detection order.
- It always saves the ledger.

This project models that logic with pure functions over immutable data and
proves what the monitor relies on:

- which items become products (first 40 only, last write wins, nothing
  invented or lost);
- the drop rule in both directions;
- `¥`-formatted amounts read back as the numbers they show, which is what the
  ranking key depends on;
- the ranking is a stable descending sort cut to 6;
- a message exists exactly when drops exist;
- failed categories are skipped;
- the saved ledger is the loaded one with the whole snapshot merged in, so
  running the same scrapes again saves the same ledger;
- detecting per category against the partly merged ledger finds exactly the
  drops against the ledger as loaded, given distinct colon-free category names.

Modules, one per concern:

- `Wrappers`: `Option`.
- `Slices`: Python's `s[:n]`.
- `Digits`: the ASCII digit filter, `int()` on digit strings and `str()`.
- `Yen`: `f"¥{n:,}"` and the ranking key's parse.
- `PyDict`: an insertion-ordered dict.
- `ProductKey`: `f"{category}:{name}"` and `split(':', 1)`.
- `Extractor`: the pure part of `scrape_category`.
- `Ledger`: `db.update`.
- `Detector`: the drop loop.
- `StableSort`: a generic stable descending insertion sort.
- `Ranking`: the sort and cut used by the message.
- `Notifier`: message composition and text.
- `Cycle`: `main`.

Behaviours of the code worth knowing when reading the model:

- Only the first 40 candidate items of a page are examined.
- A product's identity is `category + ":" + name`.
- A price text whose digits are all zeros (`"¥0,000"`) is recorded with price 0,
  and a fall to 0 counts as a drop. See `Extractor.ExampleZeroPrice`.
- The price is read only from the first text that carries `¥`; there is no
  other lookup.
- A failed page returns `None`, and the category is skipped entirely. Its
  products are not counted and nothing is merged.
- Detection and merging alternate per category rather than running once over a
  union snapshot. `Cycle.DropsAgainstLoadedLedger` proves that this gives the
  same drops as detecting everything against the ledger as loaded, when
  category names are distinct and free of `:`.

## Model

| member | source | states |
|---|---|---|
| `Slices.Take` | monitor.py:64 | `s[:n]` is the whole of `s` when it has at most `n` elements, and otherwise exactly its first `n` elements (also the cuts at lines 69, 114, 118 and 133). |
| `Digits.Filter` | monitor.py:77 | The kept characters are all digits and never more than the input. |
| `Digits.FilterAppend` | monitor.py:77 | The digit filter works piecewise: filtering `a + b` is filtering `a` then `b`. |
| `Digits.FilterKeepsDigits` | monitor.py:77 | A string of digits passes the filter unchanged. |
| `Digits.FilterDropsNonDigits` | monitor.py:77 | A text without digits yields no digits. |
| `Digits.Value` | monitor.py:79 | `int()` of n digits is below 10^n. |
| `Digits.ValueAppend` | monitor.py:79 | Reading digits left to right: `int(a + b) == int(a) * 10^len(b) + int(b)`. |
| `Digits.Decimal` | monitor.py:132 | `str(n)` is a non-empty digit string without a leading zero that reads back as n. |
| `Yen.Thousands` | monitor.py:119-121 | `f"{n:,}"` is non-empty and begins with a digit; its exact layout is stated by `Yen.ThousandsRemove` and `Yen.ThousandsCommas`. |
| `Yen.Format` | monitor.py:119-121 | `f"¥{n:,}"` is `¥` followed by at least one character; `Yen.ParseFormat` and `Yen.FormatInjective` state what it means. |
| `Yen.ThousandsRemove` | monitor.py:119-121 | Removing the `,` separators from `f"{n:,}"` gives exactly `str(n)`. |
| `Yen.ThousandsCommas` | monitor.py:119-121 | In `f"{n:,}"` a `,` stands at exactly every fourth place counted from the right, and nowhere else. |
| `Yen.DecimalSplit` | monitor.py:119-121 | From 1000 up, `str(n)` is the digits of `n // 1000` followed by the last three digits, which is where `f"{n:,}"` puts its separator. |
| `Yen.ThousandsDigits` | monitor.py:119-121 | Removing the `,` separators from `f"{n:,}"` leaves a non-empty digit string whose value is n. |
| `Yen.RemoveAppend` | monitor.py:133 | `replace(',', '')` works piecewise on a concatenation. |
| `Yen.Remove` | monitor.py:133 | `.replace(',', '')` leaves no `,` and never lengthens the text; `Yen.RemoveAppend` and `Yen.ThousandsRemove` pin what is left. |
| `Yen.Parse` | monitor.py:133 | No contract of its own: the ranking key is pinned by `Yen.ParseFormat`, which reads back every amount `Yen.Format` renders. |
| `Yen.ParseInt` | monitor.py:133 | `int()` succeeds exactly on non-empty digit strings. |
| `Yen.ParseFormat` | monitor.py:119-133 | The ranking key `int(x['drop'][1:].replace(',', ''))` applied to `f"¥{n:,}"` gives n back, so ranking by the text ranks by the amount. |
| `Yen.FormatInjective` | monitor.py:119-121 | Different amounts never render as the same `¥` text. |
| `Yen.ExampleFormat` | monitor.py:119-121 | 12800, 10000 and 999 render as `¥12,800`, `¥10,000` and `¥999`. |
| `PyDict.Put` | monitor.py:81 | `products[key] = price` stores the new value; an existing key keeps its place in iteration order, a new key is appended, and the dict stays well formed. |
| `PyDict.LenCountsKeys` | monitor.py:107 | `len(products)` is the number of distinct keys stored. |
| `ProductKey.Make` | monitor.py:80 | The key is one character longer than category and name together and contains `:`. |
| `ProductKey.FirstColon` | monitor.py:115 | The position found holds `:` and no earlier position does. |
| `ProductKey.SplitMake` | monitor.py:115 | For a colon-free category, `split(':', 1)` of the key gives back the category and exactly the name, even when the name contains `:`. |
| `ProductKey.AfterColon` | monitor.py:115 | `key.split(':', 1)[1]` is strictly shorter than the key; `ProductKey.SplitMake` states that it returns the exact name. |
| `ProductKey.NoCrossCategoryCollision` | monitor.py:80 | Keys from two different colon-free categories never collide. |
| `ProductKey.MakeInjective` | monitor.py:80 | Within one colon-free category, equal keys mean equal truncated names. |
| `Extractor.PriceText` | monitor.py:71-75 | The price text is the first text containing `¥`, or `""` when no text contains it. |
| `Extractor.Record` | monitor.py:66-81 | An item yields a record iff it has a name element and its price text holds at least 4 digits; the key is the category, `:`, and the name cut to 60; the price is the value of the kept digits. |
| `Extractor.RecordInCategory` | monitor.py:78-81 | Every record is keyed in its own category and has a non-negative price. |
| `Extractor.Harvest` | monitor.py:64-85 | The dict built from the visited items is well formed, has no more entries than items, and every entry is keyed in the category with a non-negative price. |
| `Extractor.HarvestSound` | monitor.py:64-85 | Nothing is invented: every stored key/price pair is the record of some visited item. |
| `Extractor.HarvestComplete` | monitor.py:64-85 | Nothing is lost: every item that yields a record has its key stored. |
| `Extractor.HarvestLastWins` | monitor.py:81 | The price stored for a key is the one of the last item that produced that key. |
| `Extractor.Scrape` | monitor.py:64-85 | A page yields a well-formed dict of at most 40 products, all keyed in the category with non-negative prices. |
| `Extractor.ScrapeLastWins` | monitor.py:64-81 | Last write wins among the first 40 items. |
| `Extractor.ScrapeIgnoresTail` | monitor.py:64 | Items past the 40th never affect the result. |
| `Extractor.ExampleAccepted` | monitor.py:71-81 | A `"¥12,800"` text, found first among the item's texts, records price 12800 under `cat:Phone`. |
| `Extractor.ExamplesRejected` | monitor.py:66-78 | Three digits, no `¥` text, or no name element: no record. |
| `Extractor.ExampleZeroPrice` | monitor.py:77-81 | `"¥0,000"` passes the 4-digit rule and records price 0. |
| `Ledger.Merge` | monitor.py:126 | `db.update(products)`: the keys are the union, snapshot prices overwrite, and every other key keeps its price. |
| `Ledger.MergeIdempotent` | monitor.py:126 | Merging the same snapshot twice is merging it once. |
| `Ledger.MergeEmpty` | monitor.py:126 | An empty page changes no ledger entry. |
| `Ledger.MergeDisjointCommutes` | monitor.py:126 | Snapshots with disjoint keys (different categories) merge in either order. |
| `Ledger.MergeAssociative` | monitor.py:126 | Merging two snapshots in turn is merging their union, the second winning. |
| `Detector.DroppedKeys` | monitor.py:110-111 | A key is reported iff it is among the visited keys, is in the ledger, and its ledger price is strictly higher than the fresh price. |
| `Detector.DroppedKeysAppend` | monitor.py:110-111 | Detection keeps the dict's iteration order: it works piecewise on a split of the keys. |
| `Detector.Event` | monitor.py:112-123 | Each drop's old, new and drop texts read back as the ledger price, the fresh price and their positive difference; the label is at most 2 characters and the name at most 35; the percentage is taken of the drop over the old price. |
| `Detector.Detect` | monitor.py:110-123 | One entry per dropped key, never more than the page's products, each with a positive drop amount. |
| `Detector.DetectEntry` | monitor.py:110-123 | Entry i is the entry built from the i-th dropped key, its stored price and its fresh price: the key is in both the ledger and the page with a higher stored price, the amount reads back as ledger minus fresh price, and the name is the scraped name cut to 35. |
| `Detector.NoDropWithoutDecrease` | monitor.py:111 | Equal prices, price rises and new keys produce no entry. |
| `StableSort.Insert` | monitor.py:133 | Insertion adds exactly the one element, as a permutation. |
| `StableSort.Sort` | monitor.py:133 | `sorted` returns a permutation of its input. |
| `StableSort.SortDescending` | monitor.py:133 | With `reverse=True` the result is ordered by key, largest first. |
| `StableSort.SortStable` | monitor.py:133 | Entries with equal keys keep their original relative order. |
| `StableSort.PrefixOfDescending` | monitor.py:133 | Cutting a descending list keeps the largest: every entry left out is no larger than any kept one. |
| `StableSort.WithKeyPrefix` | monitor.py:133 | The equal-key entries of a prefix are a prefix of the equal-key entries of the whole. |
| `StableSort.ExampleSort` | monitor.py:133 | Keys 100, 50, 200 come out as 200, 100, 50. |
| `Ranking.Rank` | monitor.py:133 | At most 6 drops are listed, all of them when there are fewer. |
| `Ranking.RankOrdered` | monitor.py:133 | The listed drops are drawn from the detected ones, ordered by amount descending, and no drop left out exceeds a listed one. |
| `Ranking.RankStable` | monitor.py:133 | The listed drops of one amount are the first drops of that amount in detection order. |
| `Ranking.RankSingle` | monitor.py:133 | A lone drop is listed as it is. |
| `Notifier.Compose` | monitor.py:131-133 | A message exists iff drops exist; it counts all drops, carries the run's timestamp, and lists exactly `Rank` of the drops: the 6 largest by amount, largest first, equal amounts in detection order. |
| `Notifier.Render` | monitor.py:132-137 | The text starts with the header (count and timestamp), ends with the catalogue link, and is exactly as long as header, joined blocks and link together, so nothing else lies between them. |
| `Notifier.Header` | monitor.py:132 | No contract of its own: `Notifier.Render` states that the message begins with it. |
| `Notifier.Block` | monitor.py:134-136 | No contract of its own: `Notifier.RenderListsEvery` states where each drop's block lies in the message. |
| `Notifier.ConcatAppend` | monitor.py:133-136 | Appending blocks in turn is joining their texts in order. |
| `Notifier.RenderListsEvery` | monitor.py:133-136 | Each listed drop's three lines appear in the text right after the header and the blocks listed before it. |
| `Cycle.Step` | monitor.py:100-126 | One category keeps every earlier drop, adds only positive drops, never forgets a ledger key, and adds at most 40 products and no more drops than products. |
| `Cycle.Run` | monitor.py:99-126 | Over all categories, drops are positive, ledger keys are kept, and drops ≤ products ≤ 40 per category. |
| `Cycle.Main` | monitor.py:91-144 | A message is composed iff drops were found; it counts every drop and lists `Rank` of them, the stable descending top 6 by amount; the saved ledger keeps every loaded key. |
| `Cycle.FailedCategorySkipped` | monitor.py:104-105 | A category whose scrape returned `None` changes neither the ledger, nor the drops, nor the product count. |
| `Cycle.EmptyPageChangesNothing` | monitor.py:107-126 | A page that yields no products leaves the state as it was. |
| `Cycle.SilentWithoutDecrease` | monitor.py:100-144 | With distinct colon-free category names, a run in which no fetched price is below the loaded ledger's entry records no drop and sends no message. |
| `Cycle.NoFreshDrops` | monitor.py:110-111 | No category detects a drop against the loaded ledger when none of its prices fell below their ledger entries. |
| `Cycle.AllFailedIsSilent` | monitor.py:100-144 | If every scrape fails, the ledger is saved unchanged, nothing is counted and no message is sent. |
| `Cycle.RunLedger` | monitor.py:100-126 | The saved ledger is the loaded one with all scraped pages merged in category order. |
| `Cycle.RunTwiceSameLedger` | monitor.py:126-144 | Running the same scrapes again on the saved ledger saves the same ledger. |
| `Cycle.OtherCategoriesUntouched` | monitor.py:126 | Merging other colon-free categories leaves a category's ledger entries untouched. |
| `Cycle.DetectAgrees` | monitor.py:110-111 | Detection reads the ledger only at the category's own keys. |
| `Cycle.DropsAgainstLoadedLedger` | monitor.py:100-126 | With distinct colon-free category names, the drops equal each category's drops against the ledger as loaded, in category order. |
| `Cycle.OneProductDrop` | monitor.py:100-126 | One category with one cheaper product: the ledger takes the new price, one product is counted, exactly one drop is recorded. |
| `Cycle.EventInCategory` | monitor.py:114-118 | A drop's label is the category's first 2 characters and its name is the scraped name cut to 35. |
| `Cycle.ExamplePage` | monitor.py:91-144 | A phone stored at 10000 and now listed at `¥8,000` gives one drop labelled `ca Phone`, one message counting it, and a saved price of 8000. |
| `Cycle.ExampleCycle` | monitor.py:110-133 | In that run the drop reads back as 10000 → 8000, a drop of 2000 at 2000/10000. |

## Left out

- Fetching and parsing HTML (monitor.py:53-62): a category's page arrives as a sequence of abstract items, each with its first name element's text and its text nodes. Class-keyword matching, tag lookup and `strip` are not modelled.
- The `strip()` of the price text (monitor.py:74) is not modelled. It removes only whitespace, which the digit filter drops anyway.
- Per-item exceptions (monitor.py:82-83): no modelled step raises. `int()` failing on non-ASCII digits is therefore not modelled.
- Digits.Filter: keeps ASCII digits only. Python's `str.isdigit` also accepts other Unicode digits, which either convert (full-width digits) or make `int()` raise and skip the item (superscripts).
- Yen.ParseInt: accepts only non-empty ASCII digit strings. Python's `int()` also takes a sign, surrounding whitespace and `_` separators. The ranking key only ever reads strings built by `Yen.Format`, where these never occur.
- Startup checks (monitor.py:10-22): the credential check and `sys.exit`, and the fixed category table. The categories are a parameter of `Cycle.Main`.
- `send_line` (monitor.py:24-33): delivery over LINE is not modelled. `Cycle.Main` returns the message it would send.
- `load_db` / `save_db` (monitor.py:35-49): file I/O. The model starts from the loaded ledger as a `map<string, int>` and returns the ledger to be saved. A corrupt file reads as empty in the source; that is I/O and not modelled, and neither are JSON values that are not integers.
- The timestamp (monitor.py:92): the clock is not modelled. The timestamp is an opaque string parameter.
- Detector.Event: the percentage `round((drop / old) * 100, 1)` (monitor.py:113) is floating point. It is kept symbolic as `Percent(drop, old)`, and `Notifier.Render` takes its rendering as a function parameter.
- Console output (`print`) throughout is not modelled.

=== FILE: cycle.dfy ===
/** One run of `main`: fold over the categories in order, skipping the ones
    whose scrape failed; detect drops against the ledger as it stands, then
    merge; compose a message only when drops exist; hand the final ledger to
    `save_db` in every case. */
module Cycle {
  import opened Wrappers
  import opened PyDict
  import opened Ledger
  import opened Extractor
  import opened Detector
  import opened Ranking
  import opened Notifier
  import Yen
  import ProductKey

  /** A configured category and what its scrape delivered: the candidate
      items of its page, or `None` when `scrape_category` returned `None`. */
  datatype Category = Category(name: string, page: Option<seq<Item>>)

  /** The loop's variables: `db`, `all_drops`, `total_products`. */
  datatype State = State(db: Db, drops: seq<DropEvent>, total: nat)

  /** What one run produces: the ledger handed to `save_db`, the drops, the
      product count, and the message handed to `send_line` (`None`: nothing sent). */
  datatype Outcome = Outcome(saved: Db, drops: seq<DropEvent>, total: nat, message: Option<Message>)

  /** Every recorded drop text reads back as a strictly positive amount. */
  predicate PositiveDrops(drops: seq<DropEvent>)
  {
    forall i :: 0 <= i < |drops| ==> Yen.Parse(drops[i].drop).Some? && Yen.Parse(drops[i].drop).value > 0
  }

  /** One pass of the category loop. */
  function Step(s: State, c: Category): (r: State)
    requires PositiveDrops(s.drops)
    ensures PositiveDrops(r.drops)
    ensures s.db.Keys <= r.db.Keys
    ensures |s.drops| <= |r.drops| && r.drops[..|s.drops|] == s.drops
    ensures s.total <= r.total <= s.total + MaxItems
    ensures |r.drops| - |s.drops| <= r.total - s.total
  {
    match c.page
    case None => s
    case Some(items) =>
      var products := Scrape(c.name, items);
      var found := Detect(c.name, s.db, products);
      var r := State(Merge(s.db, products.values), s.drops + found, s.total + Len(products));
      assert r.drops[..|s.drops|] == s.drops;
      r
  }

  /** The category loop over `cs`, starting from the loaded ledger. */
  function Run(db: Db, cs: seq<Category>): (r: State)
    ensures PositiveDrops(r.drops)
    ensures db.Keys <= r.db.Keys
    ensures |r.drops| <= r.total <= MaxItems * |cs|
  {
    if cs == [] then State(db, [], 0)
    else Step(Run(db, cs[..|cs| - 1]), cs[|cs| - 1])
  }

  /** `main` after `load_db`: the loop, then the message if any drop was found. */
  function Main(db: Db, cs: seq<Category>, timestamp: string): (r: Outcome)
    ensures r.message.Some? <==> |r.drops| > 0
    ensures r.message.Some? ==> r.message.value.count == |r.drops|
    ensures r.message.Some? ==> |r.message.value.shown| <= Shown
    ensures AllSortable(r.drops)
    ensures r.message.Some? ==> r.message.value.shown == Rank(r.drops)
    ensures r.saved.Keys >= db.Keys
    ensures |r.drops| <= r.total <= MaxItems * |cs|
  {
    var s := Run(db, cs);
    Outcome(s.db, s.drops, s.total, Compose(s.drops, timestamp))
  }

  /** A category whose scrape failed changes nothing: not the ledger, not the
      drops, not the product count. */
  lemma FailedCategorySkipped(s: State, name: string)
    requires PositiveDrops(s.drops)
    ensures Step(s, Category(name, None)) == s
  {
  }

  /** A page that yields no products leaves the state as it was. */
  lemma EmptyPageChangesNothing(s: State, c: Category)
    requires PositiveDrops(s.drops)
    requires c.page.Some? && Len(Scrape(c.name, c.page.value)) == 0
    ensures Step(s, c) == s
  {
    var products := Scrape(c.name, c.page.value);
    LenCountsKeys(products);
    assert products.values == map[];
    assert DroppedKeys(s.db, products.values, products.order) == [];
    assert Merge(s.db, products.values) == s.db;
    assert s.drops + [] == s.drops;
  }

  /** When every scrape failed the ledger is saved unchanged and nothing is sent. */
  lemma {:induction false} AllFailedIsSilent(db: Db, cs: seq<Category>, timestamp: string)
    requires forall i :: 0 <= i < |cs| ==> cs[i].page.None?
    ensures Run(db, cs) == State(db, [], 0)
    ensures Main(db, cs, timestamp) == Outcome(db, [], 0, None)
    decreases |cs|
  {
    if cs != [] {
      AllFailedIsSilent(db, cs[..|cs| - 1], timestamp);
    }
  }

  /** Everything the run scraped, merged in category order: the snapshot. */
  function Snapshot(cs: seq<Category>): (r: map<string, int>)
  {
    if cs == [] then map[]
    else
      var c := cs[|cs| - 1];
      var before := Snapshot(cs[..|cs| - 1]);
      match c.page
      case None => before
      case Some(items) => Merge(before, Scrape(c.name, items).values)
  }

  /** The saved ledger is the loaded one with the whole snapshot merged in. */
  lemma {:induction false} RunLedger(db: Db, cs: seq<Category>)
    ensures Run(db, cs).db == Merge(db, Snapshot(cs))
    decreases |cs|
  {
    if cs != [] {
      var prefix := cs[..|cs| - 1];
      var c := cs[|cs| - 1];
      RunLedger(db, prefix);
      if c.page.Some? {
        MergeAssociative(db, Snapshot(prefix), Scrape(c.name, c.page.value).values);
      }
    }
  }

  /** Running the same scrapes again on the saved ledger saves the same ledger. */
  lemma RunTwiceSameLedger(db: Db, cs: seq<Category>)
    ensures Run(Run(db, cs).db, cs).db == Run(db, cs).db
  {
    RunLedger(db, cs);
    RunLedger(Run(db, cs).db, cs);
    MergeIdempotent(db, Snapshot(cs));
  }

  /** A key of one colon-free category is never a key of another. */
  lemma KeysOfDistinctCategories(c1: string, k1: string, c2: string, k2: string)
    requires ':' !in c1 && ':' !in c2 && c1 != c2
    requires InCategory(c1, k1) && InCategory(c2, k2)
    ensures k1 != k2
  {
    assert k1 == ProductKey.Make(c1, k1[|c1| + 1..]);
    assert k2 == ProductKey.Make(c2, k2[|c2| + 1..]);
    ProductKey.NoCrossCategoryCollision(c1, k1[|c1| + 1..], c2, k2[|c2| + 1..]);
  }

  /** Two ledgers that agree on key `k`. */
  predicate AgreeOn(db1: Db, db2: Db, k: string)
  {
    (k in db1 <==> k in db2) && (k in db1 ==> db1[k] == db2[k])
  }

  /** Scraping other colon-free categories leaves the ledger entries of a
      category untouched. */
  lemma {:induction false} OtherCategoriesUntouched(db: Db, cs: seq<Category>, name: string, k: string)
    requires ':' !in name && InCategory(name, k)
    requires forall i :: 0 <= i < |cs| ==> ':' !in cs[i].name && cs[i].name != name
    ensures AgreeOn(Run(db, cs).db, db, k)
    decreases |cs|
  {
    if cs != [] {
      var c := cs[|cs| - 1];
      OtherCategoriesUntouched(db, cs[..|cs| - 1], name, k);
      if c.page.Some? {
        var products := Scrape(c.name, c.page.value);
        if k in products.values {
          KeysOfDistinctCategories(name, k, c.name, k);
        }
      }
    }
  }

  /** Detection only reads the ledger at the category's own keys. */
  lemma {:induction false} DroppedKeysAgree(db1: Db, db2: Db, values: map<string, int>, keys: seq<string>)
    requires forall k :: k in keys ==> AgreeOn(db1, db2, k)
    ensures DroppedKeys(db1, values, keys) == DroppedKeys(db2, values, keys)
    decreases |keys|
  {
    if keys != [] {
      assert keys[|keys| - 1] in keys;
      DroppedKeysAgree(db1, db2, values, keys[..|keys| - 1]);
    }
  }

  lemma DetectAgrees(name: string, db1: Db, db2: Db, products: Dict)
    requires Scraped(name, products)
    requires forall k :: InCategory(name, k) ==> AgreeOn(db1, db2, k)
    ensures Detect(name, db1, products) == Detect(name, db2, products)
  {
    DroppedKeysAgree(db1, db2, products.values, products.order);
    var ks := DroppedKeys(db1, products.values, products.order);
    forall i | 0 <= i < |ks| ensures ks[i] in db1 && ks[i] in db2 && db1[ks[i]] == db2[ks[i]] {
      assert ks[i] in ks;
    }
  }

  /** The drops each category finds against the loaded ledger, in category order. */
  function FreshDrops(db: Db, cs: seq<Category>): (r: seq<DropEvent>)
  {
    if cs == [] then []
    else
      var c := cs[|cs| - 1];
      FreshDrops(db, cs[..|cs| - 1]) +
        match c.page
        case None => []
        case Some(items) => Detect(c.name, db, Scrape(c.name, items))
  }

  /** Category names are free of `:` and pairwise different, as the monitor's
      four configured categories are. */
  predicate DistinctNames(cs: seq<Category>)
  {
    && (forall i :: 0 <= i < |cs| ==> ':' !in cs[i].name)
    && (forall i, j :: 0 <= i < j < |cs| ==> cs[i].name != cs[j].name)
  }

  /** Merging earlier categories first never hides or invents a drop: with
      distinct colon-free category names, the run's drops are exactly each
      category's drops against the ledger as loaded. */
  lemma {:induction false} DropsAgainstLoadedLedger(db: Db, cs: seq<Category>)
    requires DistinctNames(cs)
    ensures Run(db, cs).drops == FreshDrops(db, cs)
    decreases |cs|
  {
    if cs != [] {
      var prefix := cs[..|cs| - 1];
      var c := cs[|cs| - 1];
      DistinctPrefix(cs);
      DropsAgainstLoadedLedger(db, prefix);
      if c.page.Some? {
        var products := Scrape(c.name, c.page.value);
        LoadedLedgerSuffices(db, prefix, c);
        assert Run(db, cs).drops == Run(db, prefix).drops + Detect(c.name, Run(db, prefix).db, products);
        assert FreshDrops(db, cs) == FreshDrops(db, prefix) + Detect(c.name, db, products);
      }
    }
  }

  /** Dropping the last category keeps the names distinct, and the last name
      differs from all before it. */
  lemma DistinctPrefix(cs: seq<Category>)
    requires DistinctNames(cs) && cs != []
    ensures var prefix := cs[..|cs| - 1];
      && DistinctNames(prefix) && ':' !in cs[|cs| - 1].name
      && forall i :: 0 <= i < |prefix| ==> ':' !in prefix[i].name && prefix[i].name != cs[|cs| - 1].name
  {
    var prefix := cs[..|cs| - 1];
    forall i | 0 <= i < |prefix| ensures prefix[i] == cs[i] {
    }
  }

  /** A category detects the same drops after other colon-free categories
      were merged as against the ledger as loaded. */
  lemma LoadedLedgerSuffices(db: Db, prefix: seq<Category>, c: Category)
    requires c.page.Some? && ':' !in c.name
    requires forall i :: 0 <= i < |prefix| ==> ':' !in prefix[i].name && prefix[i].name != c.name
    ensures Detect(c.name, Run(db, prefix).db, Scrape(c.name, c.page.value))
         == Detect(c.name, db, Scrape(c.name, c.page.value))
  {
    forall k | InCategory(c.name, k) ensures AgreeOn(Run(db, prefix).db, db, k) {
      OtherCategoriesUntouched(db, prefix, c.name, k);
    }
    DetectAgrees(c.name, Run(db, prefix).db, db, Scrape(c.name, c.page.value));
  }

  /** No product on any fetched page is listed below the price the ledger held
      for it when the run started. */
  predicate NoPriceFell(db: Db, cs: seq<Category>)
  {
    forall i, k :: 0 <= i < |cs| && cs[i].page.Some?
      && k in Scrape(cs[i].name, cs[i].page.value).values && k in db
      ==> db[k] <= Scrape(cs[i].name, cs[i].page.value).values[k]
  }

  /** A run in which no price fell below its ledger entry finds no drops and
      sends no message, whatever it merges along the way. */
  lemma SilentWithoutDecrease(db: Db, cs: seq<Category>, timestamp: string)
    requires DistinctNames(cs)
    requires NoPriceFell(db, cs)
    ensures Main(db, cs, timestamp).drops == []
    ensures Main(db, cs, timestamp).message == None
  {
    DropsAgainstLoadedLedger(db, cs);
    NoFreshDrops(db, cs);
  }

  /** Against the ledger as loaded, no category detects a drop when no price fell. */
  lemma {:induction false} NoFreshDrops(db: Db, cs: seq<Category>)
    requires NoPriceFell(db, cs)
    ensures FreshDrops(db, cs) == []
    decreases |cs|
  {
    if cs != [] {
      var prefix, c := cs[..|cs| - 1], cs[|cs| - 1];
      forall i | 0 <= i < |prefix| ensures prefix[i] == cs[i] {
      }
      NoFreshDrops(db, prefix);
      if c.page.Some? {
        NoDropWithoutDecrease(c.name, db, Scrape(c.name, c.page.value));
      }
    }
  }

  /** End to end on a page: the phone stored at 10000 and now listed at
      "¥8,000" in category "catA" yields one drop labelled "ca Phone", one
      message listing it, and a saved ledger holding 8000. */
  lemma ExamplePage(db: Db, c: Category, timestamp: string)
    requires c == Category("catA", Some([Item(Some("Phone"), ["¥8,000"])]))
    requires db == map["catA:Phone" := 10000]
    ensures var out := Main(db, [c], timestamp);
      && out.saved == map["catA:Phone" := 8000]
      && out.message == Some(Message(1, timestamp, out.drops))
      && |out.drops| == 1 && out.drops[0].cat == "ca" && out.drops[0].name == "Phone"
  {
    ExampleScrape(c.name, c.page.value);
    var name, was, now := "Phone", 10000, 8000;
    assert ProductKey.Make(c.name, name) == "catA:Phone";
    ExampleCycle(db, c, name, was, now, timestamp);
  }

  /** The same cycle once the page has been scraped: the drop reads back as old
      price 10000, new price 8000 and drop 2000, and the message counts it once. */
  lemma ExampleCycle(db: Db, c: Category, name: string, was: int, now: int, timestamp: string)
    requires c.name == "catA" && name == "Phone" && was == 10000 && now == 8000
    requires db == map[ProductKey.Make(c.name, name) := was]
    requires c.page.Some? && Scrape(c.name, c.page.value) == Dict([ProductKey.Make(c.name, name)], map[ProductKey.Make(c.name, name) := now])
    ensures var out := Main(db, [c], timestamp);
      && out.saved == map[ProductKey.Make(c.name, name) := now]
      && |out.drops| == 1 && out.total == 1
      && out.drops[0].cat == "ca" && out.drops[0].name == "Phone"
      && Yen.Parse(out.drops[0].before) == Some(was) && Yen.Parse(out.drops[0].after) == Some(now)
      && Yen.Parse(out.drops[0].drop) == Some(2000) && out.drops[0].pct == Percent(2000, was)
      && out.message == Some(Message(1, timestamp, out.drops))
  {
    OneProductDrop(db, c, name, was, now);
    var r := Run(db, [c]);
    ExampleEvent(c.name, name, was, now);
    RankSingle(r.drops[0]);
  }

  /** The drop of the example, read back from its texts. */
  lemma ExampleEvent(category: string, name: string, was: int, now: int)
    requires category == "catA" && name == "Phone" && was == 10000 && now == 8000
    ensures var e := Event(category, ProductKey.Make(category, name), was, now);
      && e.cat == "ca" && e.name == "Phone"
      && Yen.Parse(e.drop) == Some(2000) && e.pct == Percent(2000, was)
  {
    EventInCategory(category, name, was, now);
    assert Slices.Take(category, LabelLength) == "ca";
    assert Slices.Take(name, NameLength) == "Phone";
  }

  /** A run over one category whose scrape holds a single product that got
      cheaper: the ledger takes the new price, one product is counted and
      exactly one drop is recorded. */
  lemma OneProductDrop(db: Db, c: Category, name: string, was: int, now: int)
    requires 0 <= now < was
    requires db == map[ProductKey.Make(c.name, name) := was]
    requires c.page.Some? && Scrape(c.name, c.page.value) == Dict([ProductKey.Make(c.name, name)], map[ProductKey.Make(c.name, name) := now])
    ensures Run(db, [c]).db == map[ProductKey.Make(c.name, name) := now]
    ensures Run(db, [c]).total == 1
    ensures Run(db, [c]).drops == [Event(c.name, ProductKey.Make(c.name, name), was, now)]
  {
    var k := ProductKey.Make(c.name, name);
    var products := Scrape(c.name, c.page.value);
    assert [c][..0] == [];
    assert products.order[..0] == [];
    assert DroppedKeys(db, products.values, products.order) == [k];
  }

  /** The labels of a drop: the category's first two characters and the name
      as scraped, cut to 35 characters. */
  lemma EventInCategory(category: string, name: string, was: int, now: int)
    requires ':' !in category && 0 <= now < was
    ensures Event(category, ProductKey.Make(category, name), was, now).cat == Slices.Take(category, LabelLength)
    ensures Event(category, ProductKey.Make(category, name), was, now).name == Slices.Take(name, NameLength)
  {
    ProductKey.SplitMake(category, name);
  }

  lemma ExampleScrape(category: string, items: seq<Item>)
    requires category == "catA" && items == [Item(Some("Phone"), ["¥8,000"])]
    ensures Scrape(category, items) == Dict(["catA:Phone"], map["catA:Phone" := 8000])
  {
    ExampleRecord(category, items[0]);
    assert Slices.Take(items, MaxItems) == items;
    assert items[..0] == [];
    assert Harvest(category, []) == Empty;
  }

  lemma ExampleRecord(category: string, item: Item)
    requires category == "catA" && item == Item(Some("Phone"), ["¥8,000"])
    ensures Record(category, item) == Some(("catA:Phone", 8000))
  {
    ExamplePriceDigits(item.texts);
    assert PriceDigits(item) == "8000";
    ExampleValue();
    assert Slices.Take("Phone", MaxName) == "Phone";
    assert ProductKey.Make("catA", "Phone") == "catA:Phone";
  }

  lemma ExampleValue()
    ensures Digits.Value("8000") == 8000
  {
    assert "8000"[..3] == "800" && "800"[..2] == "80" && "80"[..1] == "8" && "8"[..0] == "";
  }

  lemma ExamplePriceDigits(t: seq<string>)
    requires t == ["¥8,000"]
    ensures Digits.Filter(PriceText(t)) == "8000"
  {
    assert t[0][0] == Yen.Sign;
    assert PriceText(t) == "¥8,000";
    assert "¥8,000"[1..] == "8,000" && "8,000"[1..] == ",000";
  }
}

=== FILE: detector.dfy ===
/** Drop detection for one category: compare the category's fresh dict
    against the ledger as it stands before that category is merged. */
module Detector {
  import opened Wrappers
  import opened Slices
  import Yen
  import ProductKey
  import opened PyDict
  import opened Ledger
  import opened Extractor

  /** The category label shown is its first 2 characters. */
  const LabelLength: nat := 2
  /** The product name shown is cut to 35 characters. */
  const NameLength: nat := 35

  /** `round((drop / old) * 100, 1)` kept symbolic: the floating-point
      rounding and its rendering are not modelled. */
  datatype Percent = Percent(drop: int, base: int)

  /** One entry of `all_drops`, with its fields as the strings the monitor
      stores; `before` and `after` are its `old` and `new` prices. */
  datatype DropEvent = DropEvent(cat: string, name: string, before: string, after: string, drop: string, pct: Percent)

  /** The drop rule: the key was already in the ledger at a strictly higher price. */
  predicate IsDrop(db: Db, values: map<string, int>, k: string)
  {
    k in values && k in db && db[k] > values[k]
  }

  /** The keys of `keys` (visited in order) whose price dropped. */
  function DroppedKeys(db: Db, values: map<string, int>, keys: seq<string>): (r: seq<string>)
    ensures |r| <= |keys|
    ensures forall k :: k in r <==> k in keys && IsDrop(db, values, k)
  {
    if keys == [] then []
    else
      var last := keys[|keys| - 1];
      DroppedKeys(db, values, keys[..|keys| - 1]) + (if IsDrop(db, values, last) then [last] else [])
  }

  /** Detection keeps the visiting order: it works piecewise on a split of the keys. */
  lemma {:induction false} DroppedKeysAppend(db: Db, values: map<string, int>, a: seq<string>, b: seq<string>)
    ensures DroppedKeys(db, values, a + b) == DroppedKeys(db, values, a) + DroppedKeys(db, values, b)
    decreases |b|
  {
    if b == [] {
      assert a + b == a;
    } else {
      var b', last := b[..|b| - 1], b[|b| - 1];
      var t := if IsDrop(db, values, last) then [last] else [];
      var x, y := DroppedKeys(db, values, a), DroppedKeys(db, values, b');
      calc {
        DroppedKeys(db, values, a + b);
        { assert a + b == (a + b') + [last]; DroppedKeysSnoc(db, values, a + b', last); }
        DroppedKeys(db, values, a + b') + t;
        { DroppedKeysAppend(db, values, a, b'); }
        (x + y) + t;
        x + (y + t);
        { assert b == b' + [last]; DroppedKeysSnoc(db, values, b', last); }
        x + DroppedKeys(db, values, b);
      }
    }
  }

  /** One more key at the end adds that key if its price dropped. */
  lemma DroppedKeysSnoc(db: Db, values: map<string, int>, keys: seq<string>, last: string)
    ensures DroppedKeys(db, values, keys + [last])
         == DroppedKeys(db, values, keys) + (if IsDrop(db, values, last) then [last] else [])
  {
    var s := keys + [last];
    assert s[..|s| - 1] == keys && s[|s| - 1] == last;
  }

  /** The entry `all_drops` receives for key `k` with ledger price `was` and fresh price `now`. */
  function Event(category: string, k: string, was: int, now: int): (e: DropEvent)
    requires ':' in k
    requires 0 <= now < was
    ensures Yen.Parse(e.before) == Some(was)
    ensures Yen.Parse(e.after) == Some(now)
    ensures Yen.Parse(e.drop) == Some(was - now) && was - now > 0
    ensures |e.cat| <= LabelLength && |e.name| <= NameLength
    ensures e.pct == Percent(was - now, was)
  {
    Yen.ParseFormat(was);
    Yen.ParseFormat(now);
    Yen.ParseFormat(was - now);
    DropEvent(Take(category, LabelLength), Take(ProductKey.AfterColon(k), NameLength),
              Yen.Format(was), Yen.Format(now), Yen.Format(was - now), Percent(was - now, was))
  }

  /** A dict is a well-formed scrape result: valid, keyed in its category, with non-negative prices. */
  predicate Scraped(category: string, products: Dict)
  {
    && Valid(products)
    && forall k :: k in products.values ==> InCategory(category, k) && products.values[k] >= 0
  }

  /** The entries one category appends to `all_drops`, in the dict's iteration order. */
  function Detect(category: string, db: Db, products: Dict): (r: seq<DropEvent>)
    requires Scraped(category, products)
    ensures |r| == |DroppedKeys(db, products.values, products.order)| <= Len(products)
    ensures forall i :: 0 <= i < |r| ==> Yen.Parse(r[i].drop).Some? && Yen.Parse(r[i].drop).value > 0
  {
    var ks := DroppedKeys(db, products.values, products.order);
    seq(|ks|, i requires 0 <= i < |ks| =>
      var k := ks[i];
      assert k in ks;
      assert ':' in k by { assert k[|category|] == ':'; }
      Event(category, k, db[k], products.values[k]))
  }

  /** Entry `i` of the detected drops belongs to the `i`-th dropped key: its
      amount is the ledger price minus the fresh price, and for a category
      without `:` its name is the scraped name cut to 35 characters. */
  lemma DetectEntry(category: string, db: Db, products: Dict, i: nat)
    requires Scraped(category, products)
    requires ':' !in category
    requires i < |Detect(category, db, products)|
    ensures var k := DroppedKeys(db, products.values, products.order)[i];
      && IsDrop(db, products.values, k)
      && k in db && k in products.values
      && Detect(category, db, products)[i] == Event(category, k, db[k], products.values[k])
      && Yen.Parse(Detect(category, db, products)[i].drop) == Some(db[k] - products.values[k])
      && Detect(category, db, products)[i].name == Take(k[|category| + 1..], NameLength)
  {
    var ks := DroppedKeys(db, products.values, products.order);
    var k := ks[i];
    assert k in ks;
    var name := k[|category| + 1..];
    assert k == ProductKey.Make(category, name);
    ProductKey.SplitMake(category, name);
    assert Detect(category, db, products)[i] == Event(category, k, db[k], products.values[k]);
  }

  /** Equal prices, price rises and keys new to the ledger produce no entry;
      with every key unchanged nothing at all is detected. */
  lemma NoDropWithoutDecrease(category: string, db: Db, products: Dict)
    requires Scraped(category, products)
    requires forall k :: k in products.values && k in db ==> db[k] <= products.values[k]
    ensures Detect(category, db, products) == []
  {
    NoDroppedKeys(db, products.values, products.order);
  }

  lemma {:induction false} NoDroppedKeys(db: Db, values: map<string, int>, keys: seq<string>)
    requires forall k :: k in keys ==> !IsDrop(db, values, k)
    ensures DroppedKeys(db, values, keys) == []
    decreases |keys|
  {
    if keys != [] {
      assert keys[|keys| - 1] in keys;
      NoDroppedKeys(db, values, keys[..|keys| - 1]);
    }
  }
}

=== FILE: digits.dfy ===
/** ASCII decimal digits: the digit filter applied to price text and the
    decimal value that Python's `int()` gives a string of digits. */
module Digits {

  predicate IsDigit(c: char)
  {
    '0' <= c <= '9'
  }

  predicate AllDigits(s: string)
  {
    forall i :: 0 <= i < |s| ==> IsDigit(s[i])
  }

  function DigitValue(c: char): (d: nat)
    requires IsDigit(c)
    ensures d < 10
  {
    (c as int) - ('0' as int)
  }

  function DigitChar(d: nat): (c: char)
    requires d < 10
    ensures IsDigit(c) && DigitValue(c) == d
  {
    (('0' as int) + d) as char
  }

  /** `''.join(c for c in s if c.isdigit())`, restricted to ASCII digits. */
  function Filter(s: string): (r: string)
    ensures AllDigits(r)
    ensures |r| <= |s|
  {
    if s == [] then []
    else (if IsDigit(s[0]) then [s[0]] else []) + Filter(s[1..])
  }

  /** The filter works piecewise: filtering a concatenation concatenates the filtered parts. */
  lemma {:induction false} FilterAppend(a: string, b: string)
    ensures Filter(a + b) == Filter(a) + Filter(b)
    decreases |a|
  {
    if a == [] {
      assert a + b == b;
    } else {
      assert (a + b)[1..] == a[1..] + b;
      FilterAppend(a[1..], b);
    }
  }

  /** A string of digits passes the filter unchanged. */
  lemma {:induction false} FilterKeepsDigits(s: string)
    requires AllDigits(s)
    ensures Filter(s) == s
    decreases |s|
  {
    if s != [] {
      FilterKeepsDigits(s[1..]);
    }
  }

  /** A string without digits filters to nothing. */
  lemma {:induction false} FilterDropsNonDigits(s: string)
    requires forall i :: 0 <= i < |s| ==> !IsDigit(s[i])
    ensures Filter(s) == []
    decreases |s|
  {
    if s != [] {
      FilterDropsNonDigits(s[1..]);
    }
  }

  function Pow10(n: nat): (r: nat)
    ensures r >= 1
  {
    if n == 0 then 1 else 10 * Pow10(n - 1)
  }

  /** The integer `int(s)` for a string of ASCII digits (leading zeros allowed). */
  function Value(s: string): (r: nat)
    requires AllDigits(s)
    ensures r < Pow10(|s|)
  {
    if s == [] then 0
    else
      var p := s[..|s| - 1];
      var v := Value(p);
      assert v <= Pow10(|p|) - 1;
      assert v * 10 <= Pow10(|s|) - 10;
      v * 10 + DigitValue(s[|s| - 1])
  }

  /** Concatenating two digit strings gives a digit string. */
  lemma AllDigitsAppend(a: string, b: string)
    requires AllDigits(a) && AllDigits(b)
    ensures AllDigits(a + b)
  {
    var ab := a + b;
    forall i | 0 <= i < |ab| ensures IsDigit(ab[i]) {
      if i < |a| { assert ab[i] == a[i]; } else { assert ab[i] == b[i - |a|]; }
    }
  }

  /** Reading digits left to right: the value of `a + b` is `a` shifted by the length of `b`, plus `b`. */
  lemma {:induction false} ValueAppend(a: string, b: string)
    requires AllDigits(a) && AllDigits(b)
    ensures AllDigits(a + b)
    ensures Value(a + b) == Value(a) * Pow10(|b|) + Value(b)
    decreases |b|
  {
    AllDigitsAppend(a, b);
    if b == [] {
      assert a + b == a;
    } else {
      var b' := b[..|b| - 1];
      var d := DigitValue(b[|b| - 1]);
      assert (a + b)[..|a + b| - 1] == a + b';
      assert (a + b)[|a + b| - 1] == b[|b| - 1];
      ValueAppend(a, b');
      assert Value(a + b) == Value(a + b') * 10 + d;
      ShiftStep(Value(a), Pow10(|b'|), Value(b'), d);
    }
  }

  lemma ShiftStep(x: nat, p: nat, y: nat, d: nat)
    ensures (x * p + y) * 10 + d == x * (10 * p) + (y * 10 + d)
  {
  }

  /** `str(n)`: the shortest decimal digit string of `n`. */
  function Decimal(n: nat): (r: string)
    ensures |r| > 0 && AllDigits(r)
    ensures Value(r) == n
    ensures r[0] != '0' || n == 0
  {
    if n < 10 then [DigitChar(n)]
    else
      var prefix := Decimal(n / 10);
      var r := prefix + [DigitChar(n % 10)];
      assert r[..|r| - 1] == prefix;
      r
  }
}

=== FILE: extractor.dfy ===
/** The pure part of `scrape_category`: from the candidate items of one
    category page to the page's product-key → price dict. The HTML fetch and
    the class-keyword matching that select the candidates are not modelled;
    the candidates arrive as an abstract sequence of items. */
module Extractor {
  import opened Wrappers
  import opened Slices
  import opened Digits
  import Yen
  import ProductKey
  import opened PyDict

  /** Only the first 40 candidates of a page are examined. */
  const MaxItems: nat := 40
  /** The product name is cut to 60 characters. */
  const MaxName: nat := 60
  /** A price needs at least 4 digits. */
  const MinDigits: nat := 4

  /** A candidate element: the text of its first name element (`None` when it
      has none), and its text nodes in document order. */
  datatype Item = Item(name: Option<string>, texts: seq<string>)

  /** The first text node containing `¥`, or `""` when there is none. */
  function PriceText(texts: seq<string>): (r: string)
    ensures (forall i :: 0 <= i < |texts| ==> Yen.Sign !in texts[i]) ==> r == ""
    ensures forall i :: (0 <= i < |texts| && Yen.Sign in texts[i] &&
                         forall j :: 0 <= j < i ==> Yen.Sign !in texts[j]) ==> r == texts[i]
  {
    if texts == [] then ""
    else if Yen.Sign in texts[0] then texts[0]
    else
      var r := PriceText(texts[1..]);
      assert forall i :: 1 <= i < |texts| ==> texts[i] == texts[1..][i - 1];
      r
  }

  /** The digits kept from an item's price text. */
  function PriceDigits(item: Item): (r: string)
    ensures AllDigits(r)
  {
    Filter(PriceText(item.texts))
  }

  /** The record one item contributes, if any. */
  function Record(category: string, item: Item): (r: Option<(string, int)>)
    ensures r.Some? <==> item.name.Some? && |PriceDigits(item)| >= MinDigits
    ensures r.Some? ==> r.value.0 == ProductKey.Make(category, Take(item.name.value, MaxName))
    ensures r.Some? ==> r.value.1 == Value(PriceDigits(item))
  {
    match item.name
    case None => None
    case Some(name) =>
      var digits := PriceDigits(item);
      if |digits| >= MinDigits then Some((ProductKey.Make(category, Take(name, MaxName)), Value(digits)))
      else None
  }

  /** The key of a record of `category`: the category, `:`, and a name of at most 60 characters. */
  predicate InCategory(category: string, k: string)
  {
    && |category| < |k| <= |category| + 1 + MaxName
    && k[..|category|] == category
    && k[|category|] == ':'
  }

  /** Every record an item yields is keyed in its category with a non-negative price. */
  lemma RecordInCategory(category: string, item: Item)
    requires Record(category, item).Some?
    ensures InCategory(category, Record(category, item).value.0)
    ensures Record(category, item).value.1 >= 0
  {
    var k := Record(category, item).value.0;
    assert k == category + ":" + Take(item.name.value, MaxName);
    assert k[..|category|] == category;
  }

  /** The dict built by visiting every item in order, a later record for the
      same key overwriting an earlier one. */
  function Harvest(category: string, items: seq<Item>): (r: Dict)
    ensures Valid(r)
    ensures Len(r) <= |items|
    ensures forall k :: k in r.values ==> InCategory(category, k) && r.values[k] >= 0
  {
    if items == [] then Empty
    else
      var before := Harvest(category, items[..|items| - 1]);
      var last := items[|items| - 1];
      match Record(category, last)
      case None => before
      case Some((k, p)) =>
        RecordInCategory(category, last);
        Put(before, k, p)
  }

  /** Nothing is invented: every stored pair is the record of some visited item. */
  lemma {:induction false} HarvestSound(category: string, items: seq<Item>, k: string)
    requires k in Harvest(category, items).values
    ensures exists i :: 0 <= i < |items| && Record(category, items[i]) == Some((k, Harvest(category, items).values[k]))
    decreases |items|
  {
    var prefix := items[..|items| - 1];
    var last := items[|items| - 1];
    if Record(category, last) == Some((k, Harvest(category, items).values[k])) {
      assert Record(category, items[|items| - 1]) == Some((k, Harvest(category, items).values[k]));
    } else {
      HarvestSound(category, prefix, k);
      var i :| 0 <= i < |prefix| && Record(category, prefix[i]) == Some((k, Harvest(category, prefix).values[k]));
      assert items[i] == prefix[i];
    }
  }

  /** Nothing is lost: every item that yields a record has its key stored. */
  lemma {:induction false} HarvestComplete(category: string, items: seq<Item>, i: nat)
    requires i < |items| && Record(category, items[i]).Some?
    ensures Record(category, items[i]).value.0 in Harvest(category, items).values
    decreases |items|
  {
    var prefix := items[..|items| - 1];
    if i < |items| - 1 {
      assert items[i] == prefix[i];
      HarvestComplete(category, prefix, i);
    }
  }

  /** Last write wins: the price stored for a key is the one of the last item
      that produced that key. */
  lemma {:induction false} HarvestLastWins(category: string, items: seq<Item>, i: nat)
    requires i < |items| && Record(category, items[i]).Some?
    requires forall j :: i < j < |items| && Record(category, items[j]).Some? ==>
               Record(category, items[j]).value.0 != Record(category, items[i]).value.0
    ensures Record(category, items[i]).value.0 in Harvest(category, items).values
    ensures Harvest(category, items).values[Record(category, items[i]).value.0] == Record(category, items[i]).value.1
    decreases |items|
  {
    var prefix := items[..|items| - 1];
    var k := Record(category, items[i]).value.0;
    if i < |items| - 1 {
      assert items[i] == prefix[i];
      forall j | i < j < |prefix| && Record(category, prefix[j]).Some?
        ensures Record(category, prefix[j]).value.0 != k
      {
        assert prefix[j] == items[j];
      }
      HarvestLastWins(category, prefix, i);
      var last := items[|items| - 1];
      assert Record(category, last).Some? ==> Record(category, last).value.0 != k;
    }
  }

  /** `scrape_category` on a page that was fetched and parsed: only the first
      40 items are visited. */
  function Scrape(category: string, items: seq<Item>): (r: Dict)
    ensures Valid(r)
    ensures Len(r) <= MaxItems
    ensures forall k :: k in r.values ==> InCategory(category, k) && r.values[k] >= 0
  {
    Harvest(category, Take(items, MaxItems))
  }

  /** The same rule on the capped page: an item among the first 40 whose key no
      later item among the first 40 produces determines that key's price. */
  lemma ScrapeLastWins(category: string, items: seq<Item>, i: nat)
    requires i < |items| && i < MaxItems && Record(category, items[i]).Some?
    requires forall j :: i < j < |items| && j < MaxItems && Record(category, items[j]).Some? ==>
               Record(category, items[j]).value.0 != Record(category, items[i]).value.0
    ensures Record(category, items[i]).value.0 in Scrape(category, items).values
    ensures Scrape(category, items).values[Record(category, items[i]).value.0] == Record(category, items[i]).value.1
  {
    var capped := Take(items, MaxItems);
    assert capped[i] == items[i];
    forall j | i < j < |capped| ensures capped[j] == items[j] { }
    HarvestLastWins(category, capped, i);
  }

  /** Items past the 40th are never looked at. */
  lemma ScrapeIgnoresTail(category: string, items: seq<Item>, tail: seq<Item>)
    requires |items| >= MaxItems
    ensures Scrape(category, items + tail) == Scrape(category, items)
  {
    assert Take(items + tail, MaxItems) == Take(items, MaxItems);
  }

  /** Example: `"¥12,800"` gives 12800, taken from the first
      text that carries `¥`. */
  lemma ExampleAccepted()
    ensures Record("cat", Item(Some("Phone"), ["new", "¥12,800", "¥9,999"])) == Some(("cat:Phone", 12800))
  {
    var texts := ["new", "¥12,800", "¥9,999"];
    var item := Item(Some("Phone"), texts);
    PriceTextExample();
    FilterExample();
    ValueExample();
    assert PriceDigits(item) == "12800";
    assert Take("Phone", MaxName) == "Phone";
    assert ProductKey.Make("cat", "Phone") == "cat:Phone";
    assert |PriceDigits(item)| >= MinDigits;
    assert Record("cat", item) == Some(("cat:Phone", 12800));
  }

  /** Too few digits, no `¥` text, or no name: nothing is recorded. */
  lemma ExamplesRejected()
    ensures Record("cat", Item(Some("Phone"), ["¥980"])) == None
    ensures Record("cat", Item(Some("Phone"), ["12,800"])) == None
    ensures Record("cat", Item(None, ["¥12,800"])) == None
  {
    assert Yen.Sign in "¥980";
    assert |Filter("¥980")| <= 4;
    assert Filter("¥980")[0] != '¥';
    assert Yen.Sign !in "12,800";
    assert PriceText(["12,800"]) == "";
  }

  /** Four zeros pass the digit rule: a price of 0 is recorded. */
  lemma ExampleZeroPrice()
    ensures Record("cat", Item(Some("X"), ["¥0,000"])) == Some(("cat:X", 0))
  {
    var t := "¥0,000";
    assert t[0] == Yen.Sign;
    assert t[1..] == "0,000" && "0,000"[1..] == ",000" && ",000"[1..] == "000";
    assert Filter(t) == "0000";
    assert "0000"[..3] == "000" && "000"[..2] == "00" && "00"[..1] == "0" && "0"[..0] == "";
    assert Value("0000") == 0;
    assert Take("X", MaxName) == "X";
    assert ProductKey.Make("cat", "X") == "cat:X";
  }

  lemma PriceTextExample()
    ensures PriceText(["new", "¥12,800", "¥9,999"]) == "¥12,800"
  {
    assert "¥12,800"[0] == Yen.Sign;
    assert Yen.Sign !in "new";
  }

  lemma FilterExample()
    ensures Filter("¥12,800") == "12800"
  {
    var s := "¥12,800";
    assert s[1..] == "12,800" && "12,800"[1..] == "2,800" && "2,800"[1..] == ",800";
    assert Filter(",800") == "800";
  }

  lemma ValueExample()
    ensures Value("12800") == 12800
  {
    assert "12800"[..4] == "1280";
    assert "1280"[..3] == "128";
    assert "128"[..2] == "12";
    assert "12"[..1] == "1";
    assert "1"[..0] == "";
  }
}

=== FILE: ledger.dfy ===
/** The price ledger: product key → last seen price. Loading and saving the
    JSON file are I/O and not modelled; `Merge` is `db.update(products)`. */
module Ledger {

  type Db = map<string, int>

  /** `db.update(snapshot)`: snapshot prices overwrite, every other key is kept. */
  function Merge(db: Db, snapshot: map<string, int>): (r: Db)
    ensures r.Keys == db.Keys + snapshot.Keys
    ensures forall k :: k in snapshot ==> r[k] == snapshot[k]
    ensures forall k :: k in db && k !in snapshot ==> r[k] == db[k]
  {
    db + snapshot
  }

  /** Merging the same snapshot again changes nothing. */
  lemma MergeIdempotent(db: Db, snapshot: map<string, int>)
    ensures Merge(Merge(db, snapshot), snapshot) == Merge(db, snapshot)
  {
  }

  /** An empty snapshot leaves the ledger as it was. */
  lemma MergeEmpty(db: Db)
    ensures Merge(db, map[]) == db
  {
  }

  /** Snapshots over disjoint key sets (two different categories) can be merged in either order. */
  lemma MergeDisjointCommutes(db: Db, s1: map<string, int>, s2: map<string, int>)
    requires s1.Keys !! s2.Keys
    ensures Merge(Merge(db, s1), s2) == Merge(Merge(db, s2), s1)
  {
  }

  /** Merging two snapshots one after the other is merging their union. */
  lemma MergeAssociative(db: Db, s1: map<string, int>, s2: map<string, int>)
    ensures Merge(Merge(db, s1), s2) == Merge(db, Merge(s1, s2))
  {
  }
}

=== FILE: notifier.dfy ===
/** The notification: composed only when drops exist, headed by the total
    drop count, listing the ranked drops. Delivery over LINE is not modelled. */
module Notifier {
  import opened Wrappers
  import opened Digits
  import opened Detector
  import opened Ranking

  /** A composed notification: the total number of drops, the run's timestamp
      text, and the drops listed (at most 6, largest first). */
  datatype Message = Message(count: nat, timestamp: string, shown: seq<DropEvent>)

  /** The message for this run's drops, or `None` when there are none. */
  function Compose(drops: seq<DropEvent>, timestamp: string): (r: Option<Message>)
    requires AllSortable(drops)
    ensures r.Some? <==> |drops| > 0
    ensures r.Some? ==> r.value.count == |drops| && r.value.timestamp == timestamp
    ensures r.Some? ==> |r.value.shown| == (if |drops| < Shown then |drops| else Shown)
    ensures r.Some? ==> multiset(r.value.shown) <= multiset(drops)
    ensures r.Some? ==> r.value.shown == Rank(drops)
  {
    if |drops| == 0 then None
    else
      RankOrdered(drops);
      Some(Message(|drops|, timestamp, Rank(drops)))
  }

  /** The closing link line. */
  const Link: string := "🔗 https://online.nojima.co.jp/category/114/"

  /** The first lines: drop count and timestamp. */
  function Header(count: nat, timestamp: string): string
  {
    "🔥 【ノジマ値下げ】" + Decimal(count) + "件\n⏰ " + timestamp + "\n\n"
  }

  /** The lines for one drop; `percent` renders the rounded percentage. */
  function Block(e: DropEvent, percent: Percent -> string): string
  {
    e.cat + " " + e.name + "\n"
    + "  " + e.before + " → " + e.after + "\n"
    + "  ↓" + e.drop + " (" + percent(e.pct) + "%)\n\n"
  }

  /** The strings of `parts` joined together. */
  function Concat(parts: seq<string>): (r: string)
  {
    if parts == [] then "" else Concat(parts[..|parts| - 1]) + parts[|parts| - 1]
  }

  /** The lines of every listed drop, in listing order. */
  function Blocks(es: seq<DropEvent>, percent: Percent -> string): (r: seq<string>)
    ensures |r| == |es|
  {
    seq(|es|, i requires 0 <= i < |es| => Block(es[i], percent))
  }

  /** The message text sent to LINE. */
  function Render(m: Message, percent: Percent -> string): (r: string)
    ensures |r| == |Header(m.count, m.timestamp)| + |Concat(Blocks(m.shown, percent))| + |Link|
    ensures r[..|Header(m.count, m.timestamp)|] == Header(m.count, m.timestamp)
    ensures r[|r| - |Link|..] == Link
  {
    var h := Header(m.count, m.timestamp);
    var r := h + Concat(Blocks(m.shown, percent)) + Link;
    assert r[..|h|] == h;
    r
  }

  /** Joining a concatenation joins the joined halves. */
  lemma {:induction false} ConcatAppend(a: seq<string>, b: seq<string>)
    ensures Concat(a + b) == Concat(a) + Concat(b)
    decreases |b|
  {
    if b == [] {
      assert a + b == a;
    } else {
      var b', last := b[..|b| - 1], b[|b| - 1];
      assert (a + b)[..|a + b| - 1] == a + b';
      assert (a + b)[|a + b| - 1] == last;
      ConcatAppend(a, b');
      assert Concat(a + b) == (Concat(a) + Concat(b')) + last;
      assert Concat(b) == Concat(b') + last;
    }
  }

  /** Part `i` sits in the join right after the parts before it. */
  lemma ConcatPart(parts: seq<string>, i: nat)
    requires i < |parts|
    ensures var at := |Concat(parts[..i])|;
      at + |parts[i]| <= |Concat(parts)| && Concat(parts)[at..at + |parts[i]|] == parts[i]
  {
    var b := parts[i];
    var pre := Concat(parts[..i]);
    var post := Concat(parts[i + 1..]);
    assert parts == parts[..i] + [b] + parts[i + 1..];
    ConcatAppend(parts[..i] + [b], parts[i + 1..]);
    ConcatAppend(parts[..i], [b]);
    assert Concat([b]) == b by {
      assert [b][..0] == [];
    }
    assert Concat(parts) == pre + b + post;
    assert (pre + b + post)[|pre|..|pre| + |b|] == b;
  }

  /** Every listed drop's lines occur in the rendered message, right after the
      header and the lines of the drops listed before it. */
  lemma RenderListsEvery(m: Message, percent: Percent -> string, i: nat)
    requires i < |m.shown|
    ensures var at := |Header(m.count, m.timestamp)| + |Concat(Blocks(m.shown, percent)[..i])|;
      var b := Block(m.shown[i], percent);
      at + |b| <= |Render(m, percent)| && Render(m, percent)[at..at + |b|] == b
  {
    var parts := Blocks(m.shown, percent);
    assert parts[i] == Block(m.shown[i], percent);
    JoinedPart(Header(m.count, m.timestamp), parts, Link, i);
  }

  /** Part `i` of the join, framed by a head and a tail. */
  lemma JoinedPart(h: string, parts: seq<string>, tail: string, i: nat)
    requires i < |parts|
    ensures var w, at := h + Concat(parts) + tail, |h| + |Concat(parts[..i])|;
      at + |parts[i]| <= |w| && w[at..at + |parts[i]|] == parts[i]
  {
    ConcatPart(parts, i);
    Inside(h, Concat(parts), tail, |Concat(parts[..i])|, |parts[i]|);
  }

  /** A slice of the middle part, seen in the whole. */
  lemma Inside(h: string, mid: string, tail: string, at: nat, n: nat)
    requires at + n <= |mid|
    ensures (h + mid + tail)[|h| + at..|h| + at + n] == mid[at..at + n]
  {
    var w := h + mid + tail;
    forall j | |h| + at <= j < |h| + at + n ensures w[j] == mid[j - |h|] {
    }
  }
}

=== FILE: productkey.dfy ===
/** Product identity: `f"{category_name}:{name}"`, and the name recovered
    from it with `key.split(':', 1)[1]`. */
module ProductKey {

  /** `f"{category}:{name}"` */
  function Make(category: string, name: string): (k: string)
    ensures |k| == |category| + 1 + |name|
    ensures ':' in k
  {
    category + ":" + name
  }

  /** `key.index(':')`: the position of the first `:`. */
  function FirstColon(k: string): (i: nat)
    requires ':' in k
    ensures i < |k| && k[i] == ':'
    ensures forall j :: 0 <= j < i ==> k[j] != ':'
  {
    if k[0] == ':' then 0 else 1 + FirstColon(k[1..])
  }

  /** `key.split(':', 1)[1]`: everything after the first `:`. */
  function AfterColon(k: string): (r: string)
    requires ':' in k
    ensures |r| < |k|
  {
    k[FirstColon(k) + 1..]
  }

  /** `key.split(':', 1)[0]`: everything before the first `:`. */
  function BeforeColon(k: string): (r: string)
    requires ':' in k
    ensures ':' !in r
  {
    k[..FirstColon(k)]
  }

  /** For a category without `:`, splitting its key at the first `:` gives back
      the category and exactly the name, even when the name holds `:` itself. */
  lemma SplitMake(category: string, name: string)
    requires ':' !in category
    ensures BeforeColon(Make(category, name)) == category
    ensures AfterColon(Make(category, name)) == name
  {
    var k := Make(category, name);
    assert k[|category|] == ':';
    assert forall j :: 0 <= j < |category| ==> k[j] == category[j];
    var i := FirstColon(k);
    assert i == |category|;
    assert k[..i] == category;
    assert k[i + 1..] == name;
  }

  /** Keys made from two different colon-free categories never collide. */
  lemma NoCrossCategoryCollision(c1: string, n1: string, c2: string, n2: string)
    requires ':' !in c1 && ':' !in c2
    requires c1 != c2
    ensures Make(c1, n1) != Make(c2, n2)
  {
    SplitMake(c1, n1);
    SplitMake(c2, n2);
  }

  /** Within one colon-free category, equal keys mean equal names. */
  lemma MakeInjective(category: string, n1: string, n2: string)
    requires ':' !in category
    requires Make(category, n1) == Make(category, n2)
    ensures n1 == n2
  {
    SplitMake(category, n1);
    SplitMake(category, n2);
  }
}

=== FILE: pydict.dfy ===
/** A Python `dict` from product key to price, keeping insertion order:
    iteration visits keys in `order`, lookups go through `values`. */
module PyDict {

  datatype Dict = Dict(order: seq<string>, values: map<string, int>)

  /** Every key appears once in the iteration order, and exactly the stored keys do. */
  predicate Valid(d: Dict)
  {
    && (forall i, j :: 0 <= i < j < |d.order| ==> d.order[i] != d.order[j])
    && (forall k :: k in d.values ==> k in d.order)
    && (forall i :: 0 <= i < |d.order| ==> d.order[i] in d.values)
  }

  /** `{}` */
  const Empty: Dict := Dict([], map[])

  /** `len(d)` */
  function Len(d: Dict): nat
  {
    |d.order|
  }

  /** `d[k] = v`: an existing key keeps its place in the iteration order and
      takes the new value; a new key is appended at the end. */
  function Put(d: Dict, k: string, v: int): (r: Dict)
    requires Valid(d)
    ensures Valid(r)
    ensures r.values == d.values[k := v]
    ensures k in d.values ==> r.order == d.order
    ensures k !in d.values ==> r.order == d.order + [k]
  {
    if k in d.values then Dict(d.order, d.values[k := v])
    else Dict(d.order + [k], d.values[k := v])
  }

  /** `len(d)` is the number of distinct keys stored. */
  lemma {:induction false} LenCountsKeys(d: Dict)
    requires Valid(d)
    ensures Len(d) == |d.values.Keys|
    decreases |d.order|
  {
    if d.order == [] {
      assert d.values.Keys == {};
    } else {
      var last := d.order[|d.order| - 1];
      var prefix := Dict(d.order[..|d.order| - 1], d.values - {last});
      DropLastValid(d);
      LenCountsKeys(prefix);
      assert d.values.Keys == prefix.values.Keys + {last};
    }
  }

  /** Removing the last key in iteration order leaves a valid dict. */
  lemma DropLastValid(d: Dict)
    requires Valid(d) && |d.order| > 0
    ensures Valid(Dict(d.order[..|d.order| - 1], d.values - {d.order[|d.order| - 1]}))
  {
    var last := d.order[|d.order| - 1];
    var order := d.order[..|d.order| - 1];
    var values := d.values - {last};
    forall i | 0 <= i < |order| ensures order[i] in values {
      assert d.order[i] == order[i];
    }
    forall k | k in values ensures k in order {
      assert k in d.order;
      var i :| 0 <= i < |d.order| && d.order[i] == k;
      assert order[i] == k;
    }
  }
}

=== FILE: ranking.dfy ===
/** Ranking of the detected drops for the notification:
    `sorted(all_drops, key=lambda x: int(x['drop'][1:].replace(',', '')), reverse=True)[:6]`. */
module Ranking {
  import opened Slices
  import Yen
  import opened Detector
  import opened StableSort

  /** At most 6 drops are listed in the message. */
  const Shown: nat := 6

  /** `int(x['drop'][1:].replace(',', ''))`, defined where Python would not raise. */
  function Amount(e: DropEvent): int
    requires Yen.Parse(e.drop).Some?
  {
    Yen.Parse(e.drop).value
  }

  /** Every drop text can be read back as an amount. */
  predicate AllSortable(drops: seq<DropEvent>)
  {
    forall i :: 0 <= i < |drops| ==> Yen.Parse(drops[i].drop).Some?
  }

  /** The drops listed in the message: the sorted drops cut to 6. */
  function Rank(drops: seq<DropEvent>): (r: seq<DropEvent>)
    requires AllSortable(drops)
    ensures |r| == if |drops| < Shown then |drops| else Shown
  {
    Take(Sort(drops, Amount), Shown)
  }

  /** The listed drops are the 6 largest amounts, largest first: they are taken
      from the detected drops, and every drop left out is no larger than any drop listed. */
  lemma RankOrdered(drops: seq<DropEvent>)
    requires AllSortable(drops)
    ensures Descending(Rank(drops), Amount)
    ensures multiset(Rank(drops)) <= multiset(drops)
    ensures forall e :: e in multiset(drops) - multiset(Rank(drops)) ==>
              Yen.Parse(e.drop).Some? && forall i :: 0 <= i < |Rank(drops)| ==> Amount(e) <= Amount(Rank(drops)[i])
  {
    var sorted := Sort(drops, Amount);
    SortDescending(drops, Amount);
    var n := |Rank(drops)|;
    PrefixOfDescending(sorted, Amount, n);
    assert Rank(drops) == sorted[..n];
  }

  /** Stability of the listing: the listed drops of any one amount are the
      first drops of that amount in detection order. */
  lemma RankStable(drops: seq<DropEvent>, v: int)
    requires AllSortable(drops)
    ensures var w := WithKey(Rank(drops), Amount, v);
      |w| <= |WithKey(drops, Amount, v)| && w == WithKey(drops, Amount, v)[..|w|]
  {
    var sorted := Sort(drops, Amount);
    SortStable(drops, Amount, v);
    WithKeyPrefix(sorted, Amount, v, |Rank(drops)|);
  }

  /** A lone drop is listed as it is. */
  lemma RankSingle(e: DropEvent)
    requires Yen.Parse(e.drop).Some?
    ensures AllSortable([e])
    ensures Rank([e]) == [e]
  {
    SortSingle(e, Amount);
    assert Take([e], Shown) == [e];
  }
}

=== FILE: slices.dfy ===
/** Python's prefix slice `s[:n]`, used for every truncation in the monitor. */
module Slices {

  /** `s[:n]`: the whole of `s` when it is short enough, else its first `n` elements. */
  function Take<T>(s: seq<T>, n: nat): (r: seq<T>)
    ensures |r| == if |s| <= n then |s| else n
    ensures |r| <= n
    ensures r == s[..|r|]
  {
    if |s| <= n then s else s[..n]
  }
}

=== FILE: sort.dfy ===
/** Python's `sorted(s, key=key, reverse=True)`: a stable sort, largest key
    first, where entries with equal keys keep their original order. */
module StableSort {

  /** The key can be computed for every entry (Python would raise otherwise). */
  ghost predicate Keyed<T>(s: seq<T>, key: T --> int)
  {
    forall i :: 0 <= i < |s| ==> key.requires(s[i])
  }

  /** Ordered by key, largest first. */
  ghost predicate Descending<T>(s: seq<T>, key: T --> int)
  {
    && Keyed(s, key)
    && forall i, j :: 0 <= i < j < |s| ==> key(s[i]) >= key(s[j])
  }

  /** The entries of `s` whose key is `v`, in their order in `s`. */
  function WithKey<T>(s: seq<T>, key: T --> int, v: int): (r: seq<T>)
    requires Keyed(s, key)
    ensures |r| <= |s|
  {
    if s == [] then []
    else (if key(s[0]) == v then [s[0]] else []) + WithKey(s[1..], key, v)
  }

  /** Places `x` before the first entry whose key is not larger than its own,
      so that `x` stays ahead of entries with an equal key. */
  function Insert<T>(x: T, t: seq<T>, key: T --> int): (r: seq<T>)
    requires key.requires(x) && Keyed(t, key)
    ensures Keyed(r, key)
    ensures |r| == |t| + 1
    ensures forall e :: e in r ==> e == x || e in t
    ensures multiset(r) == multiset([x] + t)
  {
    if t == [] || key(t[0]) <= key(x) then [x] + t
    else
      var r := [t[0]] + Insert(x, t[1..], key);
      assert t == [t[0]] + t[1..];
      r
  }

  /** Insertion sort, largest key first. */
  function Sort<T>(s: seq<T>, key: T --> int): (r: seq<T>)
    requires Keyed(s, key)
    ensures Keyed(r, key)
    ensures multiset(r) == multiset(s)
    ensures |r| == |s|
  {
    if s == [] then []
    else
      var r := Insert(s[0], Sort(s[1..], key), key);
      assert s == [s[0]] + s[1..];
      r
  }

  /** Inserting into a descending sequence keeps it descending. */
  lemma {:induction false} InsertDescending<T>(x: T, t: seq<T>, key: T --> int)
    requires key.requires(x) && Descending(t, key)
    ensures Descending(Insert(x, t, key), key)
    decreases |t|
  {
    if t != [] && key(t[0]) > key(x) {
      var t' := t[1..];
      InsertDescending(x, t', key);
      var r := Insert(x, t, key);
      var r' := Insert(x, t', key);
      assert r == [t[0]] + r';
      forall j | 0 < j < |r| ensures key(r[0]) >= key(r[j]) {
        assert r[j] == r'[j - 1];
        assert r[j] in r';
        if r[j] != x {
          var m :| 0 <= m < |t'| && t'[m] == r[j];
          assert t[m + 1] == r[j];
        }
      }
      forall i, j | 0 < i < j < |r| ensures key(r[i]) >= key(r[j]) {
        assert r[i] == r'[i - 1] && r[j] == r'[j - 1];
      }
    }
  }

  /** The sorted result is ordered largest first. */
  lemma {:induction false} SortDescending<T>(s: seq<T>, key: T --> int)
    requires Keyed(s, key)
    ensures Descending(Sort(s, key), key)
    decreases |s|
  {
    if s != [] {
      SortDescending(s[1..], key);
      InsertDescending(s[0], Sort(s[1..], key), key);
    }
  }

  lemma WithKeyCons<T>(x: T, t: seq<T>, key: T --> int, v: int)
    requires key.requires(x) && Keyed(t, key)
    ensures Keyed([x] + t, key)
    ensures WithKey([x] + t, key, v) == (if key(x) == v then [x] else []) + WithKey(t, key, v)
  {
    assert ([x] + t)[0] == x && ([x] + t)[1..] == t;
  }

  /** Inserting `x` puts it ahead of every entry with the same key. */
  lemma {:induction false} InsertStable<T>(x: T, t: seq<T>, key: T --> int, v: int)
    requires key.requires(x) && Keyed(t, key)
    ensures Keyed([x] + t, key)
    ensures WithKey(Insert(x, t, key), key, v) == WithKey([x] + t, key, v)
    decreases |t|
  {
    WithKeyCons(x, t, key, v);
    if t != [] && key(t[0]) > key(x) {
      var t' := t[1..];
      assert t == [t[0]] + t';
      var hx := if key(x) == v then [x] else [];
      var h0 := if key(t[0]) == v then [t[0]] else [];
      assert Insert(x, t, key) == [t[0]] + Insert(x, t', key);
      InsertStable(x, t', key, v);
      WithKeyCons(t[0], Insert(x, t', key), key, v);
      WithKeyCons(x, t', key, v);
      WithKeyCons(t[0], t', key, v);
      // `x` and `t[0]` have different keys, so at most one of them is kept.
      assert hx == [] || h0 == [];
      assert h0 + (hx + WithKey(t', key, v)) == hx + (h0 + WithKey(t', key, v));
    }
  }

  /** Stability: for every key, the entries with that key come out of the sort
      in the order they went in. */
  lemma {:induction false} SortStable<T>(s: seq<T>, key: T --> int, v: int)
    requires Keyed(s, key)
    ensures WithKey(Sort(s, key), key, v) == WithKey(s, key, v)
    decreases |s|
  {
    if s != [] {
      assert s == [s[0]] + s[1..];
      SortStable(s[1..], key, v);
      InsertStable(s[0], Sort(s[1..], key), key, v);
      WithKeyCons(s[0], Sort(s[1..], key), key, v);
      WithKeyCons(s[0], s[1..], key, v);
    }
  }

  /** A prefix of a descending sequence is descending, and bounds from above
      everything after it. */
  lemma PrefixOfDescending<T>(s: seq<T>, key: T --> int, n: nat)
    requires Descending(s, key) && n <= |s|
    ensures Descending(s[..n], key)
    ensures multiset(s[..n]) <= multiset(s)
    ensures forall e :: e in multiset(s) - multiset(s[..n]) ==>
              key.requires(e) && forall i :: 0 <= i < n ==> key(e) <= key(s[i])
  {
    var r := s[..n];
    var rest := s[n..];
    assert s == r + rest;
    assert multiset(s) == multiset(r) + multiset(rest);
    forall e | e in multiset(s) - multiset(r)
      ensures key.requires(e) && forall i :: 0 <= i < n ==> key(e) <= key(s[i])
    {
      assert e in rest;
      var j :| 0 <= j < |rest| && rest[j] == e;
      assert s[n + j] == e;
    }
  }

  lemma {:induction false} WithKeyAppend<T>(a: seq<T>, b: seq<T>, key: T --> int, v: int)
    requires Keyed(a, key) && Keyed(b, key)
    ensures Keyed(a + b, key)
    ensures WithKey(a + b, key, v) == WithKey(a, key, v) + WithKey(b, key, v)
    decreases |a|
  {
    if a == [] {
      assert a + b == b;
    } else {
      var head := if key(a[0]) == v then [a[0]] else [];
      assert (a + b)[0] == a[0] && (a + b)[1..] == a[1..] + b;
      WithKeyAppend(a[1..], b, key, v);
      assert WithKey(a + b, key, v) == head + (WithKey(a[1..], key, v) + WithKey(b, key, v));
      assert WithKey(a, key, v) == head + WithKey(a[1..], key, v);
    }
  }

  /** The equal-key entries of a prefix are a prefix of the equal-key entries of the whole. */
  lemma WithKeyPrefix<T>(s: seq<T>, key: T --> int, v: int, n: nat)
    requires Keyed(s, key) && n <= |s|
    ensures var w := WithKey(s[..n], key, v);
      |w| <= |WithKey(s, key, v)| && w == WithKey(s, key, v)[..|w|]
  {
    assert s == s[..n] + s[n..];
    WithKeyAppend(s[..n], s[n..], key, v);
  }

  /** Sorting entries with keys 100, 50 and 200 gives the order 200, 100, 50. */
  lemma ExampleSort<T>(a: T, b: T, c: T, key: T --> int)
    requires key.requires(a) && key.requires(b) && key.requires(c)
    requires key(a) == 100 && key(b) == 50 && key(c) == 200
    ensures Keyed([a, b, c], key)
    ensures Sort([a, b, c], key) == [c, a, b]
  {
    SortPair(b, c, key);
    SortUnfold(a, [b, c], key);
    InsertUnfold(a, c, [b], key);
    assert Insert(a, [b], key) == [a, b];
    assert Insert(a, [c, b], key) == [c, a, b];
  }

  /** A single element is already sorted. */
  lemma SortSingle<T>(x: T, key: T --> int)
    requires key.requires(x)
    ensures Keyed([x], key)
    ensures Sort([x], key) == [x]
  {
    SortUnfold(x, [], key);
    assert Insert(x, [], key) == [x];
  }

  lemma SortPair<T>(b: T, c: T, key: T --> int)
    requires key.requires(b) && key.requires(c) && key(b) < key(c)
    ensures Keyed([b, c], key)
    ensures Sort([b, c], key) == [c, b]
  {
    SortUnfold(c, [], key);
    assert Insert(c, [], key) == [c];
    assert Sort([c], key) == [c];
    SortUnfold(b, [c], key);
    InsertUnfold(b, c, [], key);
    assert Insert(b, [], key) == [b];
  }

  lemma SortUnfold<T>(x: T, t: seq<T>, key: T --> int)
    requires key.requires(x) && Keyed(t, key)
    ensures Keyed([x] + t, key)
    ensures Sort([x] + t, key) == Insert(x, Sort(t, key), key)
  {
    assert ([x] + t)[0] == x && ([x] + t)[1..] == t;
  }

  lemma InsertUnfold<T>(x: T, y: T, t: seq<T>, key: T --> int)
    requires key.requires(x) && key.requires(y) && Keyed(t, key)
    requires key(y) > key(x)
    ensures Keyed([y] + t, key)
    ensures Insert(x, [y] + t, key) == [y] + Insert(x, t, key)
  {
    assert ([y] + t)[0] == y && ([y] + t)[1..] == t;
  }
}

=== FILE: wrappers.dfy ===
/** The optional-value datatype used where the monitor returns `None`. */
module Wrappers {

  datatype Option<+T> = None | Some(value: T)
}

=== FILE: yen.dfy ===
/** Rendering an amount as `f"¥{n:,}"` and reading it back the way the
    ranking key does: drop the first character, remove every `,`, `int()`. */
module Yen {
  import opened Wrappers
  import opened Digits

  /** The yen sign U+00A5 that marks price text. */
  const Sign: char := '¥'

  /** A group of exactly three digits, zero padded. */
  function Group(m: nat): (r: string)
    requires m < 1000
    ensures |r| == 3 && AllDigits(r)
    ensures Value(r) == m
  {
    var r := [DigitChar(m / 100), DigitChar(m / 10 % 10), DigitChar(m % 10)];
    assert r[..2][..1] == [r[0]] && r[..2][..1][..0] == [];
    assert Value(r[..1]) == m / 100;
    assert Value(r[..2]) == m / 100 * 10 + m / 10 % 10;
    assert Value(r) == (m / 100 * 10 + m / 10 % 10) * 10 + m % 10;
    r
  }

  /** `f"{n:,}"`: the decimal digits of `n` with a `,` between groups of three. */
  function Thousands(n: nat): (r: string)
    ensures |r| > 0 && IsDigit(r[0])
  {
    if n < 1000 then Decimal(n)
    else Thousands(n / 1000) + "," + Group(n % 1000)
  }

  /** Without its separators, `f"{n:,}"` is `str(n)`. */
  lemma {:induction false} ThousandsRemove(n: nat)
    ensures Remove(Thousands(n), ',') == Decimal(n)
    decreases n
  {
    if n < 1000 {
      DigitsHaveNoComma(Decimal(n));
      RemoveAbsent(Decimal(n), ',');
    } else {
      var h, g := Thousands(n / 1000), Group(n % 1000);
      assert Thousands(n) == h + "," + g;
      ThousandsRemove(n / 1000);
      DigitsHaveNoComma(g);
      RemoveSeparator(h, g);
      DecimalSplit(n);
    }
  }

  /** In `f"{n:,}"` a `,` stands exactly at every fourth place counted from the right. */
  lemma {:induction false} ThousandsCommas(n: nat)
    ensures Grouped(Thousands(n))
    decreases n
  {
    if n < 1000 {
      DecimalShort(n);
      DigitsHaveNoComma(Decimal(n));
    } else {
      var h, g := Thousands(n / 1000), Group(n % 1000);
      assert Thousands(n) == h + "," + g;
      ThousandsCommas(n / 1000);
      DigitsHaveNoComma(g);
      CommaLayout(h, g);
    }
  }

  /** Below 1000, `str(n)` has at most three digits. */
  lemma DecimalShort(n: nat)
    requires n < 1000
    ensures |Decimal(n)| <= 3
  {
    if n >= 10 {
      assert Decimal(n) == Decimal(n / 10) + [DigitChar(n % 10)];
      if n >= 100 {
        assert Decimal(n / 10) == Decimal(n / 10 / 10) + [DigitChar(n / 10 % 10)];
      }
    }
  }

  /** `str(n)` splits into the digits of `n // 1000` and the last three digits. */
  lemma DecimalSplit(n: nat)
    requires n >= 1000
    ensures Decimal(n) == Decimal(n / 1000) + Group(n % 1000)
  {
    var a, b := n / 10, n / 10 / 10;
    LastThree(n);
    assert Decimal(n) == Decimal(a) + [DigitChar(n % 10)];
    assert Decimal(a) == Decimal(b) + [DigitChar(a % 10)];
    assert Decimal(b) == Decimal(b / 10) + [DigitChar(b % 10)];
  }

  /** The digits of `n % 1000` are the last three digits of `n`. */
  lemma LastThree(n: nat)
    ensures n / 10 / 10 / 10 == n / 1000
    ensures Group(n % 1000) == [DigitChar(n / 10 / 10 % 10), DigitChar(n / 10 % 10), DigitChar(n % 10)]
  {
    var a, d0 := n / 10, n % 10;
    var b, d1 := a / 10, a % 10;
    var c, d2 := b / 10, b % 10;
    var m := n % 1000;
    assert n == 1000 * c + (100 * d2 + 10 * d1 + d0);
    assert c == n / 1000 && m == 100 * d2 + 10 * d1 + d0;
    assert m / 100 == d2 && m / 10 % 10 == d1 && m % 10 == d0;
  }

  /** A `,` stands exactly at every fourth place of `r` counted from the right. */
  predicate Grouped(r: string)
  {
    forall i :: 0 <= i < |r| ==> (r[i] == ',' <==> (|r| - i) % 4 == 0)
  }

  /** Appending a `,` and three digits keeps a `,` exactly every fourth place from the right. */
  lemma CommaLayout(h: string, g: string)
    requires Grouped(h)
    requires |g| == 3 && ',' !in g
    ensures Grouped(h + "," + g)
  {
    var r := h + "," + g;
    forall i | 0 <= i < |r| ensures r[i] == ',' <==> (|r| - i) % 4 == 0 {
      if i < |h| {
        assert r[i] == h[i] && |r| - i == (|h| - i) + 4;
      } else if i == |h| {
        assert r[i] == ',';
      } else {
        assert r[i] == g[i - |h| - 1];
      }
    }
  }

  /** `s.replace(c, '')`. */
  function Remove(s: string, c: char): (r: string)
    ensures c !in r
    ensures |r| <= |s|
  {
    if s == [] then []
    else (if s[0] == c then [] else [s[0]]) + Remove(s[1..], c)
  }

  lemma {:induction false} RemoveAppend(a: string, b: string, c: char)
    ensures Remove(a + b, c) == Remove(a, c) + Remove(b, c)
    decreases |a|
  {
    if a == [] {
      assert a + b == b;
    } else {
      var head := if a[0] == c then [] else [a[0]];
      assert (a + b)[0] == a[0] && (a + b)[1..] == a[1..] + b;
      RemoveAppend(a[1..], b, c);
      assert Remove(a + b, c) == head + (Remove(a[1..], c) + Remove(b, c));
      assert Remove(a, c) == head + Remove(a[1..], c);
    }
  }

  lemma {:induction false} RemoveAbsent(s: string, c: char)
    requires c !in s
    ensures Remove(s, c) == s
    decreases |s|
  {
    if s != [] {
      RemoveAbsent(s[1..], c);
    }
  }

  /** `int(s)` on the strings the ranking key produces: a non-empty run of
      ASCII digits parses to its value, anything else is rejected. */
  function ParseInt(s: string): (r: Option<nat>)
    ensures r.Some? <==> |s| > 0 && AllDigits(s)
  {
    if |s| > 0 && AllDigits(s) then Some(Value(s)) else None
  }

  /** `f"¥{n:,}"`. */
  function Format(n: nat): (r: string)
    ensures |r| > 1 && r[0] == Sign
  {
    [Sign] + Thousands(n)
  }

  /** `int(s[1:].replace(',', ''))`: `None` unless, with the `,`s removed, what
      follows the first character is a non-empty ASCII digit string. */
  function Parse(s: string): (r: Option<nat>)
  {
    if |s| == 0 then None else ParseInt(Remove(s[1..], ','))
  }

  lemma DigitsHaveNoComma(s: string)
    requires AllDigits(s)
    ensures ',' !in s
  {
    forall i | 0 <= i < |s| ensures s[i] != ',' {
      assert IsDigit(s[i]);
    }
  }

  /** Removing the separators from `f"{n:,}"` leaves digits whose value is `n`. */
  lemma {:induction false} ThousandsDigits(n: nat)
    ensures AllDigits(Remove(Thousands(n), ','))
    ensures |Remove(Thousands(n), ',')| > 0
    ensures Value(Remove(Thousands(n), ',')) == n
    decreases n
  {
    if n < 1000 {
      DigitsHaveNoComma(Decimal(n));
      RemoveAbsent(Decimal(n), ',');
    } else {
      var hi := Thousands(n / 1000);
      var lo := Group(n % 1000);
      ThousandsDigits(n / 1000);
      DigitsHaveNoComma(lo);
      RemoveSeparator(hi, lo);
      var h := Remove(hi, ',');
      ValueAppend(h, lo);
      assert Pow10(3) == 1000;
      assert Value(h + lo) == (n / 1000) * 1000 + n % 1000;
    }
  }

  lemma RemoveSeparator(hi: string, lo: string)
    requires ',' !in lo
    ensures Remove(hi + "," + lo, ',') == Remove(hi, ',') + lo
  {
    var comma := ",";
    assert Remove(comma, ',') == [] by {
      assert comma[0] == ',' && comma[1..] == [];
    }
    RemoveAppend(hi + comma, lo, ',');
    RemoveAppend(hi, comma, ',');
    RemoveAbsent(lo, ',');
    assert Remove(hi + comma, ',') == Remove(hi, ',');
  }

  /** The round trip the ranking relies on: parsing a formatted amount gives the amount back. */
  lemma ParseFormat(n: nat)
    ensures Parse(Format(n)) == Some(n)
  {
    assert Format(n)[1..] == Thousands(n);
    ThousandsDigits(n);
  }

  /** Formatting is injective, so distinct amounts never render alike. */
  lemma FormatInjective(m: nat, n: nat)
    requires Format(m) == Format(n)
    ensures m == n
  {
    ParseFormat(m);
    ParseFormat(n);
  }

  lemma ExampleFormat()
    ensures Format(12800) == "¥12,800"
    ensures Format(10000) == "¥10,000"
    ensures Format(999) == "¥999"
  {
    ExampleThousands();
    ExampleThousandsZeros();
  }

  lemma ExampleThousands()
    ensures Thousands(12800) == "12,800"
  {
    assert Group(800) == "800";
    assert Decimal(12) == "12";
  }

  lemma ExampleThousandsZeros()
    ensures Thousands(10000) == "10,000"
    ensures Thousands(999) == "999"
  {
    assert Group(0) == "000";
    assert Decimal(10) == "10";
    assert Decimal(999) == "999";
  }
}
